=== FILE: README.md ===
# Build-version derivation of the Bumenfeld plugin boilerplate

The boilerplate's Gradle build script (`build.gradle.kts`) decides the project version from
three sources, derives a short git revision, and writes both the version and an optional
commit hash into the jar manifest. This project models that decision logic as pure Dafny
functions and proves what it guarantees.

- **Version precedence.** A non-blank `localVersion` property wins. Otherwise the version
  derived from `git describe --tags --long --dirty` wins when git produced one, even an
  empty one. Otherwise `baseVersion` applies: a non-blank `project_version` property or
  `0.1.0`.
- **Describe parsing.** git's output is trimmed. A `-dirty` suffix is detected and removed
  once. The rest is split on `-`. With fewer than three segments, the first segment minus
  one leading `v` is the version. Otherwise the version is the tag (minus one `v`), then
  `-dev` unless the checkout is clean and exactly on the tag, then `-N` when the commit
  distance N is positive. A distance that is not a Kotlin `Int` counts as 0.
- **Revision.** The trimmed output of `git rev-parse --short HEAD`, or `unknown` when the
  command exits non-zero, prints nothing, throws, or does not exit within 3 seconds of
  closing its output (the output is read to the end before that wait starts).
- **Manifest.** `Implementation-Version` is the version, plus `-<sha>` when the
  `COMMIT_SHA_SHORT` environment variable is set.

Subprocesses are not run: each is replaced by its outcome (`ProcessOutcome`: exited
within the build's wait, exit code, output text), and a failure to start it by a separate
constructor. Gradle properties and environment variables are `Option<string>` parameters.
The Kotlin library functions the script relies on are modelled with their exact edge
cases in `KotlinText` and `KotlinInt`: `trim` and `isBlank` use the JVM's whitespace set;
`split('-')` keeps empty segments and never returns an empty list; `removePrefix` and
`removeSuffix` remove at most one occurrence; `toIntOrNull` accepts a leading `+` or `-`
and the BMP's Unicode decimal digits, and gives null on overflow of 32 bits.

Modules: `Optional` (Kotlin null and exceptions), `KotlinText`, `KotlinInt`,
`GitDescribe` (`resolveGitVersion`), `BuildVersion` (precedence, revision, manifest,
boolean switches), and the worked examples in `DescribeExamples` and `BuildExamples`.

Two consequences of the script that the model keeps:

- A failure of `ProcessBuilder.start()` inside `resolveGitVersion` (for example, no git
  executable) is not caught, so the build fails. It is reached only when `localVersion` is
  blank. `ResolveGitVersion` returns `Failure(DescribeLaunchFailed)` for it, and
  `ComputedVersion` fails exactly in that case. A failing git run that does start only
  leads to the fallback version.
- Any non-blank output of a successful run is parsed; nothing checks its shape.

Behaviour for hyphenated tags, proved as `GitDescribe.HyphenatedTag`: a tag that itself
contains `-` (such as `v1.0-rc1`) shifts the segments. The base tag is the part before the
tag's first `-`, and the segment after it (up to the next `-`) is read as the distance. Three commits past
`v1.0-rc1` on a clean tree give the version `1.0`.

## Model

| member | source | states |
|---|---|---|
| Optional.Option.GetOr | build.gradle.kts:48 | the elvis operator `?:`: a present value is kept, and an absent one is replaced by the default |
| KotlinText.IsWhitespace | build.gradle.kts:35 | the JVM whitespace set used by `trim`: space, tab, newline and carriage return are whitespace, no visible ASCII character is, and nothing above U+3000 is |
| KotlinText.IsBlank | build.gradle.kts:36 | `isBlank()` holds exactly when skipping the leading whitespace reaches the end of the string |
| KotlinText.Trim | build.gradle.kts:35 | `trim()` yields the infix of its input with all leading and trailing whitespace cut; the result neither starts nor ends with whitespace |
| KotlinText.TrimBlank | build.gradle.kts:35-36 | a string trims to empty exactly when it is blank, so the blank check after trimming is an emptiness check |
| KotlinText.TrimIdempotent | build.gradle.kts:97 | trimming a trimmed string changes nothing |
| KotlinText.EndsWith | build.gradle.kts:40 | `endsWith(suffix)` holds exactly when the string is some text followed by `suffix` |
| KotlinText.RemoveSuffix | build.gradle.kts:41 | `removeSuffix` removes the suffix once when present, and otherwise returns the input |
| KotlinText.RemovePrefix | build.gradle.kts:47 | `removePrefix("v")` removes one leading `v` when present, and otherwise returns the input |
| KotlinText.Split | build.gradle.kts:42 | `split('-')` returns at least one segment; no segment contains `-`; joining the segments with `-` gives back the input |
| KotlinText.SplitJoin | build.gradle.kts:42 | splitting undoes joining when no part contains the separator, so the segments are uniquely determined |
| KotlinText.SplitCount | build.gradle.kts:42-43 | there is one more segment than there are `-` characters |
| KotlinText.SplitFirstStable | build.gradle.kts:44 | the first segment depends only on the text before the first `-` |
| KotlinInt.DigitOf | build.gradle.kts:48 | `Character.digit(c, 10)` is a value in -1..9; the ASCII digits give their values; the signs and the characters between `9` and U+0660 are no digits |
| KotlinInt.DigitOfBlocks | build.gradle.kts:48 | a character is a digit exactly when it lies in one of the 37 decimal-digit blocks of the BMP, and its value is then its distance from that block's zero |
| KotlinInt.ToIntOrNull | build.gradle.kts:48 | `toIntOrNull` gives a value only within the 32-bit range; only a leading `-` can make it negative |
| KotlinInt.ParseInt | build.gradle.kts:48 | a digit-accumulating loop with the library's stops, at a non-digit and on overflow, computes exactly `ToIntOrNull` |
| KotlinInt.IntToString | build.gradle.kts:52 | the decimal text of a count is a non-empty digit string, without `-`, whose value is the count; it starts with `0` only when it is `0` itself |
| KotlinInt.ParseIntToString | build.gradle.kts:52-53 | the count printed into the version parses back to itself, with or without a leading `+` |
| GitDescribe.IsDirty | build.gradle.kts:40 | the describe string is dirty exactly when it has at least two `-`-segments and the last one is `dirty` |
| GitDescribe.CleanDescribe | build.gradle.kts:40-41 | a dirty describe string is the clean one plus exactly one `-dirty`; a clean one is kept |
| GitDescribe.CommitCount | build.gradle.kts:48 | a segment that is an `Int` gives its value; any other segment counts as 0; a segment without `-` never gives a negative count |
| GitDescribe.ParseDescribe | build.gradle.kts:40-48 | the describe string is parsed exactly when its clean part holds at least two `-`; the base tag then holds no `-`, the count lies in 0..2^31-1, and dirty means the text ends with `-dirty` |
| GitDescribe.ResolveGitVersion | build.gradle.kts:18-55 | null exactly when git did not finish, exited non-zero, or printed only whitespace; an error only when git could not be started; otherwise the version of the trimmed output |
| GitDescribe.Render | build.gradle.kts:49-53 | the version starts with the base tag; it is exactly the tag for a clean checkout on the tag, and otherwise continues with `-dev` |
| GitDescribe.ReadRender | build.gradle.kts:49-54 | an independent reader, which accepts only `tag`, `tag-dev` and `tag-dev-N` with N positive and in canonical decimal, reads the version back: as a release for a clean checkout on the tag, and otherwise as a development build with the original distance |
| GitDescribe.DescribeVersion | build.gradle.kts:40-54 | the version begins with the first segment minus one `v`; it is exactly that for a short describe string or a clean checkout on the tag; a short describe string gives a version without `-` |
| GitDescribe.LongDescribeVersion | build.gradle.kts:46-54 | with three or more segments the version starts with the base tag, equals it exactly when the distance is 0 and the tree is clean, and is read back by `ReadVersion` as that release or as a `-dev` build at the parsed distance |
| GitDescribe.ShortDescribeVersion | build.gradle.kts:42-44 | with fewer than three segments the version is the describe string's first segment minus one `v`, and it holds no `-` |
| GitDescribe.ShortDescribeIgnoresDirty | build.gradle.kts:40-44 | for a short describe string, adding `-dirty` does not change the version |
| GitDescribe.DirtyOnlyAsLastSegment | build.gradle.kts:40 | when `a-b` ends with `-dirty`, the part `b` is `dirty` or itself ends with `-dirty` |
| GitDescribe.ParseDescribeText | build.gradle.kts:40-48 | parsing `tag-count-rest[-dirty]`, where `tag` and `count` hold no `-` and `rest` is any text other than `dirty` that does not end with `-dirty`, recovers the tag minus one `v`, the count as an `Int` (or 0), and the dirty flag |
| GitDescribe.DescribeTextVersion | build.gradle.kts:40-54 | the version of `tag-count-hash[-dirty]` is the rendering of those parts |
| GitDescribe.HyphenatedTag | build.gradle.kts:42-53 | for git's text of a tag `head-tail`, the base tag is `head` minus one `v` and the distance is read from `tail`, not from the real distance; when `tail` is not an `Int`, a clean checkout gets `head` minus `v` as its version |
| DescribeExamples.CleanOnTag | build.gradle.kts:49-50 | `v1.2.3-0-gabcdef` gives `1.2.3` |
| DescribeExamples.CommitsAhead | build.gradle.kts:51-53 | `v1.2.3-5-gabcdef` gives `1.2.3-dev-5` |
| DescribeExamples.DirtyOnTag | build.gradle.kts:51-53 | `v1.2.3-0-gabcdef-dirty` gives `1.2.3-dev`, without a distance |
| DescribeExamples.DirtyAhead | build.gradle.kts:51-53 | `v1.2.3-7-gabcdef-dirty` gives `1.2.3-dev-7` |
| DescribeExamples.ShortTag | build.gradle.kts:43-44 | `v2.0` gives `2.0` |
| DescribeExamples.ShortTagDirty | build.gradle.kts:40-44 | `v2.0-dirty` gives `2.0` |
| DescribeExamples.BareV | build.gradle.kts:43-44 | `v` gives the empty version |
| DescribeExamples.ReleaseCandidateTag | build.gradle.kts:42-50 | `v1.0-rc1-3-gabcdef` gives `1.0` |
| BuildVersion.NonBlank | build.gradle.kts:57 | `takeIf { it.isNotBlank() }` keeps a value exactly when it is present and not blank |
| BuildVersion.BaseVersion | build.gradle.kts:15-16 | the base version is a non-blank `project_version`, else `0.1.0`; it is never blank |
| BuildVersion.OutputVersion | build.gradle.kts:57-58 | a non-blank `localVersion` is the output version without consulting git; otherwise git's result is |
| BuildVersion.ComputedVersion | build.gradle.kts:57-60 | exactly one source wins: a non-blank `localVersion`; else a non-null git version, even an empty one; else the non-blank base version; the build fails only when `localVersion` is blank and git cannot be started |
| BuildVersion.LocalVersionShortCircuits | build.gradle.kts:57-58 | with a non-blank `localVersion`, the outcome of git has no influence on the version |
| BuildVersion.UnavailableGitFallsBack | build.gradle.kts:30-38 | a git run that timed out, failed or printed nothing leads to the base version without an error |
| BuildVersion.GitRevision | build.gradle.kts:89-102 | the revision is the trimmed output exactly when the run exited with code 0 within 3 seconds of closing its output and printed something; otherwise `unknown`; it is never blank and has no surrounding whitespace |
| BuildVersion.ImplementationVersion | build.gradle.kts:109-112 | the attribute extends the version; it equals the version exactly when `COMMIT_SHA_SHORT` is unset; removing `-<sha>` gives the version back |
| BuildVersion.ManifestAttributes | build.gradle.kts:105-113 | the block sets four attributes: the root project's and the project's names as titles, the version as `Specification-Version`, and `ImplementationVersion` of the version and the commit hash as `Implementation-Version` |
| BuildVersion.ToBooleanStrictOrNull | build.gradle.kts:75 | only the exact texts `true` and `false` are booleans |
| BuildVersion.FlagOr | build.gradle.kts:75 | a switch is true for the exact text `true`; it keeps its default for anything but `true` and `false` |
| BuildVersion.EnableHytalePlugin | build.gradle.kts:75 | `enable_hytale_plugin` is on only when set to exactly `true` |
| BuildVersion.IncludeDependenciesInJar | build.gradle.kts:120 | `fatJar` is off only when set to exactly `false` |
| BuildExamples.EmptyGitVersionWins | build.gradle.kts:57-60 | git output `v` with a newline gives the empty version, which wins over `0.1.0` |
| BuildExamples.BlankLocalVersionIgnored | build.gradle.kts:57-60 | a blank `localVersion` with git unavailable gives `0.1.0` |
| BuildExamples.RevisionFromOutput | build.gradle.kts:96-97 | output `abc1234` with a newline gives the revision `abc1234` |

## Left out

- Starting subprocesses, waiting with the 5 s and 3 s timeouts, and reading their streams. Each run is an input: its outcome, or a failure to start.
- The text decoding of process output (`readText`, `ByteArrayOutputStream.toString`). Output arrives as text.
- An I/O error while reading git describe's output would escape like a failure to start. It is not distinguished from one.
- The revision's output is read to the end before the 3-second wait starts (build.gradle.kts:95-96). A slow run therefore still gives its output, and a run that never closes its output blocks the build; neither is a case of the model. `git describe` is not affected: the build waits for it before reading.
- The build timestamp (build.gradle.kts:87-88). It depends on the wall clock and a date formatter.
- Dependency declarations, the Java toolchain, the `appJar` assembly, task wiring and Maven publishing (build.gradle.kts:63-85, 116-172, apart from the two boolean switches). They only pass values to Gradle and library code.
- `Specification-Title` and `Implementation-Title` are taken as given names. The project model of Gradle is not part of this model.
- `src/main/java/com/bumenfeld/Application.java`. It only prints messages and guards against a second start.
- Strings are sequences of Unicode scalar values, while Kotlin strings are UTF-16 code units. Only digit recognition could tell them apart: a decimal digit outside the BMP is not a digit in either reading.

=== FILE: build_examples.dfy ===
/** Worked examples of the version precedence and the revision fallback, proved about the
model. */
module BuildExamples {
  import opened Optional
  import opened KotlinText
  import opened GitDescribe
  import opened BuildVersion
  import opened DescribeExamples

  /** git prints `v` followed by a newline: the empty version it derives still beats the
      default `0.1.0`, because only null falls through. */
  lemma EmptyGitVersionWins(out: string)
    requires out == "v\n"
    ensures ComputedVersion(None, None, Launched(ProcessOutcome(true, 0, out))) ==
      Success(ResolvedVersion("", GitDerived))
  {
    assert out[0] == 'v' && out[1] == '\n';
    assert SkipBlanks(out, 0) == 0;
    assert SkipBlanksBack(out, 0, 2) == 1;
    assert Trim(out) == "v";
    assert !IsBlank(out);
    BareV("v");
  }

  /** A blank `localVersion` does not count: with git unavailable the default applies. */
  lemma BlankLocalVersionIgnored(local: string)
    requires local == "  "
    ensures ComputedVersion(None, Some(local), Launched(ProcessOutcome(false, 0, ""))) ==
      Success(ResolvedVersion(DefaultVersion, StaticDefault))
  {
    assert IsBlank(local);
  }

  /** `git rev-parse` printed a hash and a newline. */
  lemma RevisionFromOutput(out: string)
    requires out == "abc1234\n"
    ensures GitRevision(RevisionRan(ProcessOutcome(true, 0, out))) == "abc1234"
  {
    assert SkipBlanks(out, 0) == 0;
    assert SkipBlanksBack(out, 0, |out|) == 7;
    assert out[0..7] == "abc1234";
    assert !IsBlank(out) by {
      assert !IsWhitespace(out[0]);
    }
  }

  /** `git rev-parse` exited with an error: the revision is `unknown`. */
  lemma RevisionOnFailure(out: string)
    ensures GitRevision(RevisionRan(ProcessOutcome(true, 128, out))) == UnknownRevision
  {
  }

  lemma ImplementationVersionWithSha()
    ensures ImplementationVersion("1.2.3-dev-5", Some("abc1234")) == "1.2.3-dev-5-abc1234"
    ensures ImplementationVersion("1.2.3-dev-5", None) == "1.2.3-dev-5"
  {
  }
}

=== FILE: build_version.dfy ===
/** How build.gradle.kts settles the project version, the short git revision, the jar
manifest's version attributes and its two boolean switches. Gradle properties and
environment variables are parameters (`None` when unset); subprocesses are replaced by
their outcomes.
 */
module BuildVersion {
  import opened Optional
  import opened KotlinText
  import opened GitDescribe

  const DefaultVersion: string := "0.1.0"
  const UnknownRevision: string := "unknown"

  /** `?.takeIf { it.isNotBlank() }` on an optional property value. */
  function NonBlank(value: Option<string>): (r: Option<string>)
    ensures r.Some? <==> value.Some? && !IsBlank(value.value)
    ensures r.Some? ==> r == value
  {
    if value.Some? && !IsBlank(value.value) then value else None
  }

  /** `baseVersion`: the `project_version` property when it is set and not blank, else
      `0.1.0`; never blank. */
  function BaseVersion(projectVersion: Option<string>): (r: string)
    ensures !IsBlank(r)
    ensures projectVersion.Some? && !IsBlank(projectVersion.value) ==> r == projectVersion.value
    ensures projectVersion.None? || IsBlank(projectVersion.value) ==> r == DefaultVersion
  {
    assert !IsWhitespace(DefaultVersion[0]);
    NonBlank(projectVersion).GetOr(DefaultVersion)
  }

  /** `outputVersion`: a non-blank `localVersion` property, else the git-derived version.
      git is only asked when `localVersion` is absent or blank. */
  function OutputVersion(localVersion: Option<string>, describe: Launch): (r: Result<Option<string>, BuildFailure>)
    ensures NonBlank(localVersion).Some? ==> r == Success(localVersion)
    ensures NonBlank(localVersion).None? ==> r == ResolveGitVersion(describe)
  {
    match NonBlank(localVersion)
    case Some(v) => Success(Some(v))
    case None => ResolveGitVersion(describe)
  }

  /** Which rule supplied the version. */
  datatype VersionSource = ExplicitOverride | GitDerived | StaticDefault

  datatype ResolvedVersion = ResolvedVersion(value: string, source: VersionSource)

  /** `computedVersion = outputVersion ?: baseVersion`, with the rule that supplied it.
      The git-derived value is null-checked, not blank-checked: an empty version from git
      still wins over `baseVersion`. */
  function ComputedVersion(projectVersion: Option<string>, localVersion: Option<string>, describe: Launch)
    : (r: Result<ResolvedVersion, BuildFailure>)
    ensures r.Failure? <==> NonBlank(localVersion).None? && describe.LaunchFailed?
    ensures r.Success? ==>
      (r.value.source == ExplicitOverride <==> localVersion.Some? && !IsBlank(localVersion.value))
    ensures r.Success? && r.value.source == ExplicitOverride ==> r.value.value == localVersion.value
    ensures r.Success? && r.value.source != ExplicitOverride ==>
      (r.value.source == GitDerived <==> ResolveGitVersion(describe).Success? && ResolveGitVersion(describe).value.Some?)
    ensures r.Success? && r.value.source == GitDerived ==>
      ResolveGitVersion(describe) == Success(Some(r.value.value))
    ensures r.Success? && r.value.source == StaticDefault ==>
      r.value.value == BaseVersion(projectVersion) && !IsBlank(r.value.value)
  {
    match OutputVersion(localVersion, describe)
    case Failure(e) => Failure(e)
    case Success(Some(v)) =>
      Success(ResolvedVersion(v, if NonBlank(localVersion).Some? then ExplicitOverride else GitDerived))
    case Success(None) => Success(ResolvedVersion(BaseVersion(projectVersion), StaticDefault))
  }

  /** A non-blank `localVersion` settles the version whatever git would do, even when git
      cannot be started at all. */
  lemma LocalVersionShortCircuits(projectVersion: Option<string>, localVersion: Option<string>, d1: Launch, d2: Launch)
    requires localVersion.Some? && !IsBlank(localVersion.value)
    ensures ComputedVersion(projectVersion, localVersion, d1) == ComputedVersion(projectVersion, localVersion, d2)
    ensures ComputedVersion(projectVersion, localVersion, d1) == Success(ResolvedVersion(localVersion.value, ExplicitOverride))
  {
  }

  /** When `git describe` times out, fails, or prints nothing, the version is the base
      version and never blank; the build goes on. */
  lemma UnavailableGitFallsBack(projectVersion: Option<string>, localVersion: Option<string>, p: ProcessOutcome)
    requires NonBlank(localVersion).None?
    requires !p.finished || p.exitCode != 0 || IsBlank(p.output)
    ensures ComputedVersion(projectVersion, localVersion, Launched(p)) ==
      Success(ResolvedVersion(BaseVersion(projectVersion), StaticDefault))
    ensures !IsBlank(BaseVersion(projectVersion))
  {
  }

  /** The run of `git rev-parse --short HEAD`: it either throws somewhere inside
      `runCatching` or gives an outcome. Its output is read to the end before the 3-second
      wait starts, so `finished` is false only for a run that closed its output and then did
      not exit within 3 seconds; a run that never closes its output blocks the build. */
  datatype RevisionRun = RevisionThrew | RevisionRan(outcome: ProcessOutcome)

  /** Whether the revision command produced something usable. */
  predicate RevisionUsable(run: RevisionRun) {
    && run.RevisionRan?
    && run.outcome.finished
    && run.outcome.exitCode == 0
    && !IsBlank(run.outcome.output)
  }

  /** `gitRevision`: the trimmed output of a run that exited with code 0 within 3 seconds of
      closing its output and printed something; `unknown` for every other outcome, thrown
      exceptions included.
      The revision is never blank and carries no surrounding whitespace. */
  function GitRevision(run: RevisionRun): (r: string)
    ensures !IsBlank(r) && r != []
    ensures Trim(r) == r
    ensures RevisionUsable(run) ==> r == Trim(run.outcome.output)
    ensures !RevisionUsable(run) ==> r == UnknownRevision
  {
    assert !IsWhitespace(UnknownRevision[0]);
    assert Trim(UnknownRevision) == UnknownRevision by {
      assert SkipBlanks(UnknownRevision, 0) == 0;
      assert SkipBlanksBack(UnknownRevision, 0, |UnknownRevision|) == |UnknownRevision|;
      assert UnknownRevision[0..|UnknownRevision|] == UnknownRevision;
    }
    match run
    case RevisionThrew => UnknownRevision
    case RevisionRan(p) =>
      if p.finished && p.exitCode == 0 then
        var out := Trim(p.output);
        TrimBlank(p.output);
        TrimIdempotent(p.output);
        if IsBlank(out) then UnknownRevision else out
      else UnknownRevision
  }

  /** The `Implementation-Version` manifest attribute: the version followed by `-` and the
      `COMMIT_SHA_SHORT` environment variable when that is set, the version alone
      otherwise. */
  function ImplementationVersion(version: string, commitShaShort: Option<string>): (r: string)
    ensures StartsWith(r, version)
    ensures commitShaShort.None? <==> r == version
    ensures commitShaShort.Some? ==> RemoveSuffix(r, [Separator] + commitShaShort.value) == version
  {
    match commitShaShort
    case Some(sha) =>
      var r := version + [Separator] + sha;
      assert r[..|version|] == version;
      assert r[|r| - |[Separator] + sha|..] == [Separator] + sha;
      r
    case None => version
  }

  /** The four attributes the build sets in every jar manifest: the two titles as given,
      `Specification-Version` the project version, and `Implementation-Version` that version
      with the commit hash appended when one is supplied. */
  function ManifestAttributes(rootName: string, projectName: string, version: string, commitShaShort: Option<string>)
    : (m: map<string, string>)
    ensures m.Keys == {"Specification-Title", "Specification-Version", "Implementation-Title", "Implementation-Version"}
    ensures m["Specification-Title"] == rootName && m["Implementation-Title"] == projectName
    ensures m["Specification-Version"] == version
    ensures m["Implementation-Version"] == ImplementationVersion(version, commitShaShort)
    ensures StartsWith(m["Implementation-Version"], m["Specification-Version"])
    ensures commitShaShort.None? <==> m["Implementation-Version"] == m["Specification-Version"]
  {
    map[
      "Specification-Title" := rootName,
      "Specification-Version" := version,
      "Implementation-Title" := projectName,
      "Implementation-Version" := ImplementationVersion(version, commitShaShort)
    ]
  }

  /** Kotlin's `String.toBooleanStrictOrNull()`: exactly `true` or `false`, case-sensitive. */
  function ToBooleanStrictOrNull(s: string): (r: Option<bool>)
    ensures r == Some(true) <==> s == "true"
    ensures r == Some(false) <==> s == "false"
    ensures r.None? <==> s != "true" && s != "false"
  {
    if s == "true" then Some(true) else if s == "false" then Some(false) else None
  }

  /** `findProperty(name)?.toString()?.toBooleanStrictOrNull() ?: default`. */
  function FlagOr(property: Option<string>, default: bool): (r: bool)
    ensures r <==> property == Some("true") || (default && property != Some("false"))
  {
    match property
    case None => default
    case Some(s) => ToBooleanStrictOrNull(s).GetOr(default)
  }

  /** `enable_hytale_plugin` is off unless set to exactly `true`. */
  function EnableHytalePlugin(property: Option<string>): (r: bool)
    ensures r <==> property == Some("true")
  {
    FlagOr(property, false)
  }

  /** `fatJar` is on unless set to exactly `false`. */
  function IncludeDependenciesInJar(property: Option<string>): (r: bool)
    ensures !r <==> property == Some("false")
  {
    FlagOr(property, true)
  }
}

=== FILE: describe_examples.dfy ===
/** Worked examples of the describe-string rule, each proved about the model. Each example
names its describe text through a parameter pinned by `requires`, so that the proof goes
through the general lemmas rather than by evaluating the definitions on a literal. */
module DescribeExamples {
  import opened KotlinText
  import opened KotlinInt
  import opened GitDescribe

  lemma StripTag()
    ensures RemovePrefix("v1.2.3", TagPrefix) == "1.2.3"
  {
  }

  lemma CountOf(n: nat)
    requires n <= 9
    ensures CommitCount([DigitChar(n)]) == n
  {
    ParseIntToString(n);
  }

  lemma Renderings()
    ensures Render(Descriptor("1.2.3", 0, false)) == "1.2.3"
    ensures Render(Descriptor("1.2.3", 5, false)) == "1.2.3-dev-5"
    ensures Render(Descriptor("1.2.3", 0, true)) == "1.2.3-dev"
    ensures Render(Descriptor("1.2.3", 7, true)) == "1.2.3-dev-7"
  {
    assert IntToString(5) == "5";
    assert IntToString(7) == "7";
  }

  /** `v1.2.3-0-gabcdef`: clean, on the tag, gives the bare tag. */
  lemma CleanOnTag(describe: string)
    requires describe == "v1.2.3-0-gabcdef"
    ensures DescribeVersion(describe) == "1.2.3"
  {
    assert describe == DescribeText("v1.2.3", "0", "gabcdef", false);
    DescribeTextVersion(describe, "v1.2.3", "0", "gabcdef", false);
    StripTag();
    CountOf(0);
    assert [DigitChar(0)] == "0";
    assert DescribeVersion(describe) == Render(Descriptor("1.2.3", 0, false));
    Renderings();
  }

  /** `v1.2.3-5-gabcdef`: five commits past the tag. */
  lemma CommitsAhead(describe: string)
    requires describe == "v1.2.3-5-gabcdef"
    ensures DescribeVersion(describe) == "1.2.3-dev-5"
  {
    assert describe == DescribeText("v1.2.3", "5", "gabcdef", false);
    DescribeTextVersion(describe, "v1.2.3", "5", "gabcdef", false);
    StripTag();
    CountOf(5);
    assert [DigitChar(5)] == "5";
    assert DescribeVersion(describe) == Render(Descriptor("1.2.3", 5, false));
    Renderings();
  }

  /** `v1.2.3-0-gabcdef-dirty`: on the tag with local changes; no distance suffix. */
  lemma DirtyOnTag(describe: string)
    requires describe == "v1.2.3-0-gabcdef-dirty"
    ensures DescribeVersion(describe) == "1.2.3-dev"
  {
    assert describe == DescribeText("v1.2.3", "0", "gabcdef", true);
    DescribeTextVersion(describe, "v1.2.3", "0", "gabcdef", true);
    StripTag();
    CountOf(0);
    assert [DigitChar(0)] == "0";
    assert DescribeVersion(describe) == Render(Descriptor("1.2.3", 0, true));
    Renderings();
  }

  /** `v1.2.3-7-gabcdef-dirty`: seven commits past the tag with local changes. */
  lemma DirtyAhead(describe: string)
    requires describe == "v1.2.3-7-gabcdef-dirty"
    ensures DescribeVersion(describe) == "1.2.3-dev-7"
  {
    assert describe == DescribeText("v1.2.3", "7", "gabcdef", true);
    DescribeTextVersion(describe, "v1.2.3", "7", "gabcdef", true);
    StripTag();
    CountOf(7);
    assert [DigitChar(7)] == "7";
    assert DescribeVersion(describe) == Render(Descriptor("1.2.3", 7, true));
    Renderings();
  }

  /** `v2.0`: fewer than three segments, so the tag minus its `v` is the version. */
  lemma ShortTag(describe: string)
    requires describe == "v2.0"
    ensures DescribeVersion(describe) == "2.0"
  {
    assert CleanDescribe(describe) == describe;
    assert multiset(describe)[Separator] == 0;
    ShortDescribeVersion(describe);
    SplitNoDelimiter(describe, Separator);
  }

  /** `v2.0-dirty`: the dirty marker of a short describe string is ignored. */
  lemma ShortTagDirty(describe: string)
    requires describe == "v2.0-dirty"
    ensures DescribeVersion(describe) == "2.0"
  {
    assert describe == "v2.0" + DirtyMarker;
    assert multiset("v2.0")[Separator] == 0;
    ShortDescribeIgnoresDirty("v2.0");
    ShortTag("v2.0");
  }

  /** `v`: the version may come out empty. */
  lemma BareV(describe: string)
    requires describe == "v"
    ensures DescribeVersion(describe) == ""
  {
    assert CleanDescribe(describe) == describe;
    assert multiset(describe)[Separator] == 0;
    ShortDescribeVersion(describe);
    SplitNoDelimiter(describe, Separator);
  }

  /** `v1.0-rc1-3-gabcdef`: three commits past the tag `v1.0-rc1` read as the release `1.0`. */
  lemma ReleaseCandidateTag(describe: string)
    requires describe == "v1.0-rc1-3-gabcdef"
    ensures DescribeVersion(describe) == "1.0"
  {
    assert describe == "v1.0" + [Separator] + "rc1" + [Separator] + "3" + [Separator] + "gabcdef";
    NotAnInt();
    HyphenatedTag(describe, "v1.0", "rc1", "3", "gabcdef", false);
    StripShortTag();
  }

  lemma NotAnInt()
    ensures ToIntOrNull("rc1").None?
  {
    assert DigitOf('r') == -1;
  }

  lemma StripShortTag()
    ensures RemovePrefix("v1.0", TagPrefix) == "1.0"
  {
  }
}

=== FILE: git_describe.dfy ===
/** The git-derived version of the build (`resolveGitVersion` in build.gradle.kts).

The build runs `git describe --tags --long --dirty`, whose output has the shape
`<tag>-<commits since tag>-g<abbreviated hash>` followed by `-dirty` when the working tree
has uncommitted changes, and turns it into a version string: the tag without its leading
`v` for a clean checkout exactly on a tag, and `<tag>-dev` or `<tag>-dev-<commits>` otherwise.
The subprocess itself is replaced by its outcome.
 */
module GitDescribe {
  import opened Optional
  import opened KotlinText
  import opened KotlinInt

  /** What is known of a subprocess once the build stops waiting for it: whether it exited
      within the build's wait, its exit code (meaningful only when it finished) and its
      combined standard output and error, as text. For `git describe` the wait is 5 seconds
      from the start; for `git rev-parse` it is 3 seconds from the moment its output ended,
      because that output is read to the end first. */
  datatype ProcessOutcome = ProcessOutcome(finished: bool, exitCode: int, output: string)

  /** Starting `git describe` either throws (no git executable, say) or yields an outcome. */
  datatype Launch = LaunchFailed | Launched(outcome: ProcessOutcome)

  /** The one way deriving the version can fail: `ProcessBuilder.start()` throws, and nothing
      in the build script catches it. */
  datatype BuildFailure = DescribeLaunchFailed

  const DirtyMarker: string := "-dirty"
  const TagPrefix: string := "v"
  const Separator: char := '-'
  const DevMarker: string := "dev"

  /** A describe string with at least three segments, taken apart: the tag without one
      leading `v`, the commit distance (0 when the segment is not an `Int`) and the dirty
      flag. */
  datatype Descriptor = Descriptor(baseTag: string, commitCount: int, dirty: bool)

  /** `val dirty`: the describe string ends with the dirty marker, that is, it has at least
      two `-`-segments and the last one is `dirty`. */
  predicate IsDirty(describe: string)
    ensures IsDirty(describe) <==>
      var parts := Split(describe, Separator);
      |parts| >= 2 && parts[|parts| - 1] == "dirty"
  {
    DirtyMarkerLastSegment(describe);
    EndsWith(describe, DirtyMarker)
  }

  /** A text ends with the dirty marker exactly when its last `-`-segment, not the only
      one, is `dirty`. */
  lemma DirtyMarkerLastSegment(describe: string)
    ensures EndsWith(describe, DirtyMarker) <==>
      var parts := Split(describe, Separator);
      |parts| >= 2 && parts[|parts| - 1] == "dirty"
  {
    var parts := Split(describe, Separator);
    assert DirtyMarker == [Separator] + "dirty";
    if EndsWith(describe, DirtyMarker) {
      var c := describe[..|describe| - 6];
      assert describe == c + [Separator] + "dirty";
      SplitAtLast(c, Separator, "dirty");
    }
    if |parts| >= 2 && parts[|parts| - 1] == "dirty" {
      var init := parts[..|parts| - 1];
      assert parts == init + ["dirty"];
      JoinSnoc(init, "dirty", Separator);
      assert describe == Join(init, Separator) + DirtyMarker;
    }
  }

  /** The describe string with exactly one `-dirty` marker removed when it has one. */
  function CleanDescribe(describe: string): (clean: string)
    ensures IsDirty(describe) ==> clean + DirtyMarker == describe
    ensures !IsDirty(describe) ==> clean == describe
  {
    if IsDirty(describe) then RemoveSuffix(describe, DirtyMarker) else describe
  }

  /** `segments[1].toIntOrNull() ?: 0`: a segment never holds the separator, so the count it
      gives is never negative. */
  function CommitCount(segment: string): (n: int)
    ensures ToIntOrNull(segment).Some? ==> n == ToIntOrNull(segment).value
    ensures ToIntOrNull(segment).None? ==> n == 0
    ensures Separator !in segment ==> 0 <= n <= IntMax
  {
    ToIntOrNull(segment).GetOr(0)
  }

  /** Takes a describe string apart; None when, after the dirty marker is removed, it has
      fewer than three `-`-separated segments, i.e. fewer than two `-`. */
  function ParseDescribe(describe: string): (d: Option<Descriptor>)
    ensures d.Some? <==> multiset(CleanDescribe(describe))[Separator] >= 2
    ensures d.Some? ==> Separator !in d.value.baseTag
    ensures d.Some? ==> 0 <= d.value.commitCount <= IntMax
    ensures d.Some? ==> (d.value.dirty <==> EndsWith(describe, DirtyMarker))
  {
    var segments := Split(CleanDescribe(describe), Separator);
    SplitCount(CleanDescribe(describe), Separator);
    if |segments| < 3 then None
    else
      var baseTag := RemovePrefix(segments[0], TagPrefix);
      assert Separator !in baseTag by {
        assert Separator !in segments[0];
        if StartsWith(segments[0], TagPrefix) {
          assert baseTag == segments[0][1..];
        }
      }
      Some(Descriptor(baseTag, CommitCount(segments[1]), IsDirty(describe)))
  }

  /** The version string for a parsed describe string: the bare tag for a clean checkout
      exactly on it, and otherwise the tag followed by `-dev` (and then `-<distance>` when the
      distance is positive, see `ReadRender`). */
  function Render(d: Descriptor): (v: string)
    ensures StartsWith(v, d.baseTag)
    ensures v == d.baseTag <==> d.commitCount == 0 && !d.dirty
    ensures v != d.baseTag ==> StartsWith(v, d.baseTag + [Separator] + DevMarker)
  {
    if d.commitCount == 0 && !d.dirty then d.baseTag
    else d.baseTag + [Separator] + DevMarker
         + (if d.commitCount > 0 then [Separator] + IntToString(d.commitCount) else "")
  }

  /** Lines 40-54: the version for a trimmed, non-blank describe string. With fewer than three
      segments the first one, minus one leading `v`, is the whole version and the dirty flag
      is dropped. Either way the version begins with the first segment minus one `v`, and it
      is nothing more exactly for a short describe string or a clean checkout on the tag. */
  function DescribeVersion(describe: string): (v: string)
    ensures StartsWith(v, RemovePrefix(Split(CleanDescribe(describe), Separator)[0], TagPrefix))
    ensures v == RemovePrefix(Split(CleanDescribe(describe), Separator)[0], TagPrefix) <==>
      ParseDescribe(describe).None? ||
      (ParseDescribe(describe).value.commitCount == 0 && !IsDirty(describe))
    ensures multiset(CleanDescribe(describe))[Separator] < 2 ==> Separator !in v
  {
    match ParseDescribe(describe)
    case Some(d) => Render(d)
    case None => RemovePrefix(Split(CleanDescribe(describe), Separator)[0], TagPrefix)
  }

  /** `resolveGitVersion()`: null when git did not finish within its timeout, exited with a
      non-zero code, or printed only whitespace; the version of the trimmed output otherwise.
      Only a failure to start the process escapes as an error. */
  function ResolveGitVersion(launch: Launch): (r: Result<Option<string>, BuildFailure>)
    ensures r.Failure? <==> launch.LaunchFailed?
    ensures r.Success? && r.value.None? <==>
      launch.Launched? &&
      (!launch.outcome.finished || launch.outcome.exitCode != 0 || IsBlank(launch.outcome.output))
    ensures r.Success? && r.value.Some? ==>
      r.value.value == DescribeVersion(Trim(launch.outcome.output))
  {
    match launch
    case LaunchFailed => Failure(DescribeLaunchFailed)
    case Launched(p) =>
      if !p.finished || p.exitCode != 0 then Success(None)
      else
        var describe := Trim(p.output);
        TrimBlank(p.output);
        if IsBlank(describe) then Success(None) else Success(Some(DescribeVersion(describe)))
  }

  /** How a version string reads: a release `tag`, a development build `tag-dev` at
      distance 0 or `tag-dev-N` at a positive distance N written in canonical decimal, or
      none of these. It is an independent reader for `Render` (see `ReadRender`). */
  datatype VersionInfo = Release(tag: string) | Development(tag: string, distance: int) | Unreadable

  function ReadVersion(v: string): VersionInfo
  {
    var parts := Split(v, Separator);
    if |parts| == 1 then Release(parts[0])
    else if parts[1] != DevMarker then Unreadable
    else if |parts| == 2 then Development(parts[0], 0)
    else if |parts| > 3 then Unreadable
    else
      match ToIntOrNull(parts[2])
      case Some(n) => if n > 0 && parts[2] == IntToString(n) then Development(parts[0], n) else Unreadable
      case None => Unreadable
  }

  /** The rendered version loses nothing the build promises to keep: its first segment is
      the base tag, it is a plain release exactly for a clean checkout on the tag, and
      otherwise the commit distance can be read back from it. */
  lemma ReadRender(d: Descriptor)
    requires Separator !in d.baseTag
    requires 0 <= d.commitCount <= IntMax
    ensures StartsWith(Render(d), d.baseTag)
    ensures ReadVersion(Render(d)) ==
      if d.commitCount == 0 && !d.dirty then Release(d.baseTag)
      else Development(d.baseTag, d.commitCount)
  {
    var v := Render(d);
    assert v[..|d.baseTag|] == d.baseTag;
    if d.commitCount == 0 && !d.dirty {
      SplitNoDelimiter(d.baseTag, Separator);
    } else if d.commitCount == 0 {
      var parts := [d.baseTag, DevMarker];
      assert v == Join(parts, Separator);
      SplitJoin(parts, Separator);
    } else {
      var n := IntToString(d.commitCount);
      var parts := [d.baseTag, DevMarker, n];
      assert Join(parts[2..], Separator) == n;
      assert Join(parts[1..], Separator) == DevMarker + [Separator] + n;
      assert v == Join(parts, Separator);
      SplitJoin(parts, Separator);
      ParseIntToString(d.commitCount);
    }
  }

  /** A describe string of three or more segments yields a version that starts with the base
      tag, which itself holds no `-`; the version is the bare tag exactly when the distance is
      0 and the tree is clean, and names the distance whenever it is positive. */
  lemma LongDescribeVersion(describe: string)
    requires multiset(CleanDescribe(describe))[Separator] >= 2
    ensures var d := ParseDescribe(describe).value;
      && StartsWith(DescribeVersion(describe), d.baseTag)
      && (DescribeVersion(describe) == d.baseTag <==> d.commitCount == 0 && !IsDirty(describe))
      && ReadVersion(DescribeVersion(describe)) ==
         if d.commitCount == 0 && !IsDirty(describe) then Release(d.baseTag)
         else Development(d.baseTag, d.commitCount)
  {
    ReadRender(ParseDescribe(describe).value);
  }

  /** With fewer than three segments the version is the describe string's own first segment
      minus one leading `v`: the dirty marker and everything after the first `-` are
      ignored, and the result holds no `-`. */
  lemma {:induction false} ShortDescribeVersion(describe: string)
    requires multiset(CleanDescribe(describe))[Separator] < 2
    ensures DescribeVersion(describe) == RemovePrefix(Split(describe, Separator)[0], TagPrefix)
    ensures Separator !in DescribeVersion(describe)
  {
    var clean := CleanDescribe(describe);
    if IsDirty(describe) {
      assert describe == clean + [Separator] + "dirty";
      SplitFirstStable(clean, Separator, "dirty");
    }
    var first := Split(describe, Separator)[0];
    assert Separator !in first;
    if StartsWith(first, TagPrefix) {
      assert RemovePrefix(first, TagPrefix) == first[1..];
    }
  }

  /** The dirty flag is ignored for a short describe string: `v2.0` and `v2.0-dirty` give
      the same version. */
  lemma ShortDescribeIgnoresDirty(tag: string)
    requires multiset(tag)[Separator] < 2
    ensures DescribeVersion(tag + DirtyMarker) == DescribeVersion(tag)
  {
    var s := tag + DirtyMarker;
    assert IsDirty(s);
    assert CleanDescribe(s) == tag;
    ShortDescribeVersion(s);
    assert s == tag + [Separator] + "dirty";
    SplitFirstStable(tag, Separator, "dirty");
    var clean := CleanDescribe(tag);
    assert multiset(clean)[Separator] < 2 by {
      if IsDirty(tag) {
        assert tag == clean + DirtyMarker;
        assert multiset(tag) == multiset(clean) + multiset(DirtyMarker);
      }
    }
    ShortDescribeVersion(tag);
  }

  /** The text `git describe --tags --long --dirty` prints for a tag, a commit distance, a
      hash and a dirty flag. */
  function DescribeText(tag: string, count: string, hash: string, dirty: bool): string
  {
    tag + [Separator] + count + [Separator] + hash + (if dirty then DirtyMarker else "")
  }

  /** Text ending in the dirty marker after some separator: the text after that separator
      is itself `dirty` or ends with the dirty marker. */
  lemma DirtyOnlyAsLastSegment(a: string, b: string)
    ensures EndsWith(a + [Separator] + b, DirtyMarker) ==> b == "dirty" || EndsWith(b, DirtyMarker)
  {
    var s := a + [Separator] + b;
    if EndsWith(s, DirtyMarker) {
      var tail := s[|s| - 6..];
      assert tail == DirtyMarker;
      assert forall i :: |a| < i < |s| ==> s[i] == b[i - |a| - 1];
      if |b| >= 6 {
        assert b[|b| - 6..] == tail;
      } else {
        assert s[|s| - |b| - 1] == Separator;
        assert tail[5 - |b|] == Separator;
        assert |b| == 5;
        assert b == s[|s| - 5..];
      }
    }
  }

  /** Parsing the describe text of a tag and a distance that hold no `-`, followed by any
      text that does not end with the dirty marker, recovers the tag minus one leading `v`,
      the distance as an `Int` (or 0), and the dirty flag. The text after the distance may
      hold further `-`: only the first two segments are read. */
  lemma ParseDescribeText(tag: string, count: string, hash: string, dirty: bool)
    requires Separator !in tag && Separator !in count
    requires hash != "dirty" && !EndsWith(hash, DirtyMarker)
    ensures ParseDescribe(DescribeText(tag, count, hash, dirty)) ==
      Some(Descriptor(RemovePrefix(tag, TagPrefix), CommitCount(count), dirty))
  {
    DescribeTextDirty(tag, count, hash, dirty);
    SplitTwoSegments(tag, count, hash);
  }

  /** The dirty marker of a describe text is exactly the one its flag adds. */
  lemma DescribeTextDirty(tag: string, count: string, hash: string, dirty: bool)
    requires hash != "dirty" && !EndsWith(hash, DirtyMarker)
    ensures IsDirty(DescribeText(tag, count, hash, dirty)) == dirty
    ensures CleanDescribe(DescribeText(tag, count, hash, dirty)) == tag + [Separator] + count + [Separator] + hash
  {
    var clean := tag + [Separator] + count + [Separator] + hash;
    var s := DescribeText(tag, count, hash, dirty);
    DirtyOnlyAsLastSegment(tag + [Separator] + count, hash);
    if dirty {
      assert s == clean + DirtyMarker;
      assert IsDirty(s);
    } else {
      assert s == clean;
    }
  }

  /** The first two segments of `tag-count-rest` are `tag` and `count`. */
  lemma SplitTwoSegments(tag: string, count: string, rest: string)
    requires Separator !in tag && Separator !in count
    ensures Split(tag + [Separator] + count + [Separator] + rest, Separator) ==
      [tag, count] + Split(rest, Separator)
  {
    SplitAtFirst(tag, Separator, count + [Separator] + rest);
    SplitAtFirst(count, Separator, rest);
    assert tag + [Separator] + count + [Separator] + rest == tag + [Separator] + (count + [Separator] + rest);
  }

  /** A text ending with the dirty marker holds the separator. */
  lemma DirtyMarkerHasSeparator(t: string)
    ensures EndsWith(t, DirtyMarker) ==> Separator in t
  {
    if EndsWith(t, DirtyMarker) {
      assert t[|t| - 6] == Separator;
    }
  }

  /** The version of a well-formed describe text is the rendering of its parts. */
  lemma DescribeTextVersion(describe: string, tag: string, count: string, hash: string, dirty: bool)
    requires Separator !in tag && Separator !in count && Separator !in hash
    requires hash != "dirty"
    requires describe == DescribeText(tag, count, hash, dirty)
    ensures DescribeVersion(describe) ==
      Render(Descriptor(RemovePrefix(tag, TagPrefix), CommitCount(count), dirty))
  {
    DirtyMarkerHasSeparator(hash);
    ParseDescribeText(tag, count, hash, dirty);
  }

  /** A tag `head-tail` that itself contains `-` shifts the segments: the base tag is `head`
      minus one leading `v`, and `tail` is read as the commit distance, whatever the real
      distance and hash are. When `tail` is not an `Int` the distance is taken as 0, so a
      clean checkout any number of commits past such a tag gets `head` as its version. */
  lemma HyphenatedTag(describe: string, tagHead: string, tagTail: string, count: string, hash: string, dirty: bool)
    requires Separator !in tagHead && Separator !in tagTail
    requires Separator !in count && Separator !in hash && hash != "dirty"
    requires describe == DescribeText(tagHead + [Separator] + tagTail, count, hash, dirty)
    ensures ParseDescribe(describe) ==
      Some(Descriptor(RemovePrefix(tagHead, TagPrefix), CommitCount(tagTail), dirty))
    ensures ToIntOrNull(tagTail).None? && !dirty ==>
      DescribeVersion(describe) == RemovePrefix(tagHead, TagPrefix)
  {
    var rest := count + [Separator] + hash;
    assert describe == DescribeText(tagHead, tagTail, rest, dirty);
    assert rest[|count|] == Separator;
    DirtyOnlyAsLastSegment(count, hash);
    DirtyMarkerHasSeparator(hash);
    ParseDescribeText(tagHead, tagTail, rest, dirty);
  }
}

=== FILE: kotlin_int.dfy ===
/** Kotlin's `String.toIntOrNull()` (radix 10) and `Int.toString()`, as used for the commit
count of a describe string. A Kotlin `Int` is a 32-bit signed integer, so parsing fails
(gives null) on a value outside [-2^31, 2^31 - 1] as well as on a non-digit.
 */
module KotlinInt {
  import opened Optional

  const IntMax: int := 0x7FFF_FFFF
  const IntMin: int := -0x8000_0000

  /** The zero code point of every block of ten decimal digits (Unicode category Nd) in the
      Basic Multilingual Plane, in ascending order. `Character.digit(c, 10)` accepts all of
      them; a character outside the BMP reaches Kotlin as two surrogate code units, neither of
      which is a digit. */
  const DigitZeros: seq<int> := [
    0x0030, 0x0660, 0x06F0, 0x07C0, 0x0966, 0x09E6, 0x0A66, 0x0AE6, 0x0B66, 0x0BE6,
    0x0C66, 0x0CE6, 0x0D66, 0x0DE6, 0x0E50, 0x0ED0, 0x0F20, 0x1040, 0x1090, 0x17E0,
    0x1810, 0x1946, 0x19D0, 0x1A80, 0x1A90, 0x1B50, 0x1BB0, 0x1C40, 0x1C50, 0xA620,
    0xA8D0, 0xA900, 0xA9D0, 0xA9F0, 0xAA50, 0xABF0, 0xFF10
  ]

  function DigitFrom(n: int, k: nat): (v: int)
    ensures -1 <= v <= 9
    ensures n < 0x30 ==> v == -1
    ensures k >= 1 && n < 0x660 ==> v == -1
    decreases |DigitZeros| - k
  {
    if k >= |DigitZeros| then -1
    else if DigitZeros[k] <= n < DigitZeros[k] + 10 then n - DigitZeros[k]
    else DigitFrom(n, k + 1)
  }

  /** Whether code point `n` lies in the block of ten digits starting at `DigitZeros[j]`. */
  predicate InBlock(n: int, j: nat)
    requires j < |DigitZeros|
  {
    DigitZeros[j] <= n < DigitZeros[j] + 10
  }

  /** Searching the blocks from the `k`-th on finds a digit exactly when one of them holds
      `n`, and the value is then the distance from that block's zero. */
  lemma {:induction false} DigitFromBlocks(n: int, k: nat)
    ensures DigitFrom(n, k) == -1 <==> forall j :: k <= j < |DigitZeros| ==> !InBlock(n, j)
    ensures DigitFrom(n, k) >= 0 ==>
      exists j :: k <= j < |DigitZeros| && InBlock(n, j) && DigitFrom(n, k) == n - DigitZeros[j]
    decreases |DigitZeros| - k
  {
    if k < |DigitZeros| && !InBlock(n, k) {
      DigitFromBlocks(n, k + 1);
    }
  }

  /** `Character.digit(c, 10)`: the distance of `c` from the zero of its block of decimal
      digits, or -1 when `c` lies in no such block (see `DigitOfBlocks`). */
  function DigitOf(c: char): (v: int)
    ensures -1 <= v <= 9
    ensures '0' <= c <= '9' ==> v == c as int - '0' as int
    ensures c == '+' || c == '-' ==> v == -1
    ensures '9' < c < '\U{0660}' ==> v == -1
  {
    DigitFrom(c as int, 0)
  }

  /** `DigitOf` recognises exactly the characters of the decimal-digit blocks and gives each
      its distance from the block's zero. */
  lemma DigitOfBlocks(c: char)
    ensures var n := c as int;
      DigitOf(c) == -1 <==> forall j :: 0 <= j < |DigitZeros| ==> !InBlock(n, j)
    ensures var n := c as int;
      DigitOf(c) >= 0 ==> exists j :: 0 <= j < |DigitZeros| && InBlock(n, j) && DigitOf(c) == n - DigitZeros[j]
  {
    DigitFromBlocks(c as int, 0);
  }

  predicate IsDigit(c: char) {
    DigitOf(c) >= 0
  }

  predicate AllDigits(s: string) {
    forall i :: 0 <= i < |s| ==> IsDigit(s[i])
  }

  /** The value of a digit string, most significant digit first. */
  function DigitsValue(ds: string): nat
    requires AllDigits(ds)
  {
    if ds == [] then 0 else DigitsValue(ds[..|ds| - 1]) * 10 + DigitOf(ds[|ds| - 1])
  }

  /** The magnitude written by `ds`, when it is a non-empty digit string not above `limit`. */
  function Magnitude(ds: string, limit: nat): (r: Option<nat>)
  {
    if ds != [] && AllDigits(ds) && DigitsValue(ds) <= limit then Some(DigitsValue(ds)) else None
  }

  /** Kotlin's `String.toIntOrNull()`: an optional leading `+` or `-` followed by at least
      one decimal digit, with the value inside the 32-bit range; null otherwise. */
  function ToIntOrNull(s: string): (r: Option<int>)
    ensures r.Some? ==> IntMin <= r.value <= IntMax
    ensures r.Some? ==> s != [] && AllDigits(s[1..])
    ensures r.Some? && '-' !in s ==> r.value >= 0
    ensures r.Some? && r.value < 0 ==> s[0] == '-'
  {
    if |s| == 0 then None
    else if s[0] < '0' then
      if |s| == 1 then None
      else if s[0] == '-' then
        match Magnitude(s[1..], -IntMin)
        case Some(m) => Some(-(m as int))
        case None => None
      else if s[0] == '+' then
        match Magnitude(s[1..], IntMax)
        case Some(m) => Some(m)
        case None => None
      else None
    else
      match Magnitude(s, IntMax)
      case Some(m) => Some(m)
      case None => None
  }

  function DigitChar(d: nat): (c: char)
    requires d <= 9
    ensures '0' <= c <= '9' && DigitOf(c) == d
  {
    ('0' as int + d) as char
  }

  /** Kotlin's `Int.toString()` for a non-negative value: the shortest decimal digit string
      that has value `n` (no sign, and no leading zero unless it is `0` itself). */
  function IntToString(n: nat): (r: string)
    ensures r != [] && AllDigits(r) && DigitsValue(r) == n
    ensures forall i :: 0 <= i < |r| ==> '0' <= r[i] <= '9'
    ensures r[0] == '0' ==> r == "0"
    ensures '-' !in r
  {
    if n < 10 then [DigitChar(n)]
    else
      var r := IntToString(n / 10) + [DigitChar(n % 10)];
      assert r[..|r| - 1] == IntToString(n / 10);
      r
  }

  /** Parsing what `Int.toString()` printed gives the number back, with or without a leading
      `+`, for every non-negative `Int`. */
  lemma ParseIntToString(n: nat)
    requires n <= IntMax
    ensures ToIntOrNull(IntToString(n)) == Some(n)
    ensures ToIntOrNull("+" + IntToString(n)) == Some(n)
  {
    var r := IntToString(n);
    assert ("+" + r)[1..] == r;
  }

  /** Extending a digit string never lowers its value. */
  lemma {:induction false} DigitsValuePrefix(ds: string, k: nat)
    requires AllDigits(ds) && k <= |ds|
    ensures AllDigits(ds[..k]) && DigitsValue(ds[..k]) <= DigitsValue(ds)
    decreases |ds|
  {
    if k < |ds| {
      var init := ds[..|ds| - 1];
      assert init[..k] == ds[..k];
      DigitsValuePrefix(init, k);
    } else {
      assert ds[..k] == ds;
    }
  }

  /** One more digit read from `s` multiplies the value so far by ten and adds the digit. */
  lemma DigitsValueStep(s: string, start: nat, i: nat)
    requires start <= i < |s|
    requires AllDigits(s[start..i]) && IsDigit(s[i])
    ensures AllDigits(s[start..i + 1])
    ensures DigitsValue(s[start..i + 1]) == DigitsValue(s[start..i]) * 10 + DigitOf(s[i])
  {
    assert s[start..i + 1][..i - start] == s[start..i];
  }

  /** Once the value of a prefix exceeds the limit, so does the value of the whole. */
  lemma PastLimit(s: string, start: nat, i: nat, limit: nat)
    requires start <= i <= |s|
    requires AllDigits(s[start..i]) && DigitsValue(s[start..i]) > limit
    ensures !(AllDigits(s[start..]) && DigitsValue(s[start..]) <= limit)
  {
    if AllDigits(s[start..]) {
      assert s[start..][..i - start] == s[start..i];
      DigitsValuePrefix(s[start..], i - start);
    }
  }

  /** A digit-accumulating loop with the library's stops: after an optional sign, it adds
      up the magnitude left to right and gives up at the first non-digit or as soon as the
      magnitude passes the limit of the sign. It computes exactly `ToIntOrNull`. */
  method ParseInt(s: string) returns (r: Option<int>)
    ensures r == ToIntOrNull(s)
  {
    if |s| == 0 {
      return None;
    }
    var start := 0;
    var negative := false;
    var limit: nat := IntMax;
    if s[0] < '0' {
      if |s| == 1 {
        return None;
      }
      start := 1;
      if s[0] == '-' {
        negative := true;
        limit := -IntMin;
      } else if s[0] != '+' {
        return None;
      }
    }
    var acc: nat := 0;
    var i := start;
    while i < |s|
      invariant start <= i <= |s|
      invariant AllDigits(s[start..i])
      invariant acc == DigitsValue(s[start..i])
      invariant acc <= limit
    {
      var digit := DigitOf(s[i]);
      if digit < 0 {
        assert s[start..][i - start] == s[i];
        return None;
      }
      DigitsValueStep(s, start, i);
      acc := acc * 10 + digit;
      if acc > limit {
        PastLimit(s, start, i + 1, limit);
        return None;
      }
      i := i + 1;
    }
    assert s[start..i] == s[start..];
    var v: int := if negative then -(acc as int) else acc;
    r := Some(v);
  }
}

=== FILE: kotlin_text.dfy ===
/** The Kotlin standard-library string functions the build script relies on:
`trim`, `isBlank`, `endsWith`/`removeSuffix`, `startsWith`/`removePrefix` and `split(Char)`.
A Kotlin String is a sequence of UTF-16 code units; here it is a `string` (a sequence of
Unicode scalar values). None of the functions below treats a supplementary character
differently from a pair of surrogates, so the two readings agree.
 */
module KotlinText {

  /** Kotlin's `Char.isWhitespace()` on the JVM: `Character.isWhitespace(c) ||
      Character.isSpaceChar(c)`, i.e. the control characters TAB..CR and FS..US, plus every
      space, line and paragraph separator (categories Zs, Zl, Zp). */
  predicate IsWhitespace(c: char)
    ensures c == ' ' || c == '\t' || c == '\n' || c == '\r' ==> IsWhitespace(c)
    ensures '!' <= c <= '~' ==> !IsWhitespace(c)
    ensures IsWhitespace(c) ==> c as int <= 0x3000
  {
    var n := c as int;
    || 0x09 <= n <= 0x0D
    || 0x1C <= n <= 0x20
    || n == 0xA0
    || n == 0x1680
    || 0x2000 <= n <= 0x200A
    || n == 0x2028
    || n == 0x2029
    || n == 0x202F
    || n == 0x205F
    || n == 0x3000
  }

  /** Kotlin's `CharSequence.isBlank()`: empty, or whitespace only; equivalently, skipping
      the leading whitespace reaches the end. */
  predicate IsBlank(s: string)
    ensures IsBlank(s) <==> SkipBlanks(s, 0) == |s|
  {
    forall i :: 0 <= i < |s| ==> IsWhitespace(s[i])
  }

  /** The index of the first non-whitespace character at or after `i`, or `|s|`. */
  function SkipBlanks(s: string, i: nat): (k: nat)
    requires i <= |s|
    ensures i <= k <= |s|
    ensures forall j :: i <= j < k ==> IsWhitespace(s[j])
    ensures k == |s| || !IsWhitespace(s[k])
    decreases |s| - i
  {
    if i == |s| || !IsWhitespace(s[i]) then i else SkipBlanks(s, i + 1)
  }

  /** The end of `s[lo..hi]` once trailing whitespace is dropped. */
  function SkipBlanksBack(s: string, lo: nat, hi: nat): (k: nat)
    requires lo <= hi <= |s|
    ensures lo <= k <= hi
    ensures forall j :: k <= j < hi ==> IsWhitespace(s[j])
    ensures k == lo || !IsWhitespace(s[k - 1])
    decreases hi
  {
    if hi == lo || !IsWhitespace(s[hi - 1]) then hi else SkipBlanksBack(s, lo, hi - 1)
  }

  /** Kotlin's `String.trim()`: the infix of `s` left once leading and trailing whitespace
      are cut away; it neither starts nor ends with whitespace. */
  function Trim(s: string): (r: string)
    ensures r == [] || (!IsWhitespace(r[0]) && !IsWhitespace(r[|r| - 1]))
    ensures var lead := SkipBlanks(s, 0);
      && lead + |r| <= |s|
      && r == s[lead..lead + |r|]
      && (forall i :: 0 <= i < lead ==> IsWhitespace(s[i]))
      && (forall i :: lead + |r| <= i < |s| ==> IsWhitespace(s[i]))
  {
    var lo := SkipBlanks(s, 0);
    var hi := SkipBlanksBack(s, lo, |s|);
    assert lo < hi ==> !IsWhitespace(s[lo]);
    s[lo..hi]
  }

  /** A string trims to nothing exactly when it is blank; so after trimming, `isBlank`
      and `isEmpty` agree. */
  lemma TrimBlank(s: string)
    ensures IsBlank(s) <==> Trim(s) == []
    ensures IsBlank(Trim(s)) <==> Trim(s) == []
  {
    var r := Trim(s);
    if r != [] {
      assert r[0] == s[SkipBlanks(s, 0)];
    }
  }

  /** Trimming is idempotent: a trimmed string is its own trim. */
  lemma TrimIdempotent(s: string)
    ensures Trim(Trim(s)) == Trim(s)
  {
    var r := Trim(s);
    if r != [] {
      assert SkipBlanks(r, 0) == 0;
      assert SkipBlanksBack(r, 0, |r|) == |r|;
      assert r[0..|r|] == r;
    }
  }

  /** Kotlin's `endsWith(suffix)`: `s` is some text followed by `suffix`. */
  predicate EndsWith(s: string, suffix: string)
    ensures EndsWith(s, suffix) <==> exists p :: p + suffix == s
  {
    assert |suffix| <= |s| ==> s[..|s| - |suffix|] + s[|s| - |suffix|..] == s;
    |suffix| <= |s| && s[|s| - |suffix|..] == suffix
  }

  /** Kotlin's `startsWith(prefix)`. */
  predicate StartsWith(s: string, prefix: string) {
    |prefix| <= |s| && s[..|prefix|] == prefix
  }

  /** Kotlin's `removeSuffix(suffix)`: removes one occurrence at the end, if present. */
  function RemoveSuffix(s: string, suffix: string): (r: string)
    ensures EndsWith(s, suffix) ==> r + suffix == s
    ensures !EndsWith(s, suffix) ==> r == s
  {
    if EndsWith(s, suffix) then s[..|s| - |suffix|] else s
  }

  /** Kotlin's `removePrefix(prefix)`: removes one occurrence at the start, if present. */
  function RemovePrefix(s: string, prefix: string): (r: string)
    ensures StartsWith(s, prefix) ==> prefix + r == s
    ensures !StartsWith(s, prefix) ==> r == s
  {
    if StartsWith(s, prefix) then s[|prefix|..] else s
  }

  /** Joins the parts with `d` between neighbours (Kotlin's `joinToString(d)`). */
  function Join(parts: seq<string>, d: char): string
    requires |parts| >= 1
  {
    if |parts| == 1 then parts[0] else parts[0] + [d] + Join(parts[1..], d)
  }

  /** Kotlin's `split(d)` with one delimiter character and no limit: every occurrence of `d`
      separates two parts, empty parts are kept, and there is always at least one part.
      Joining the parts back with `d` gives `s`. */
  function Split(s: string, d: char): (parts: seq<string>)
    ensures |parts| >= 1
    ensures forall i :: 0 <= i < |parts| ==> d !in parts[i]
    ensures Join(parts, d) == s
  {
    if s == [] then [[]]
    else
      var rest := Split(s[1..], d);
      if s[0] == d then [[]] + rest
      else
        assert Join(rest, d) == rest[0] + Join(rest, d)[|rest[0]|..];
        [[s[0]] + rest[0]] + rest[1..]
  }

  /** There is one more part than there are delimiters. */
  lemma {:induction false} SplitCount(s: string, d: char)
    ensures |Split(s, d)| == multiset(s)[d] + 1
  {
    if s != [] {
      SplitCount(s[1..], d);
      assert s == [s[0]] + s[1..];
      assert multiset(s) == multiset{s[0]} + multiset(s[1..]);
    }
  }

  /** A string without the delimiter is a single part. */
  lemma {:induction false} SplitNoDelimiter(s: string, d: char)
    requires d !in s
    ensures Split(s, d) == [s]
  {
    if s != [] {
      SplitNoDelimiter(s[1..], d);
      assert [s[0]] + s[1..] == s;
    }
  }

  /** Splitting at the first delimiter: the text before it is the first part, and the
      remaining parts are those of the text after it. */
  lemma {:induction false} SplitAtFirst(a: string, d: char, b: string)
    requires d !in a
    ensures Split(a + [d] + b, d) == [a] + Split(b, d)
  {
    if a == [] {
      assert a + [d] + b == [d] + b;
      assert ([d] + b)[1..] == b;
    } else {
      var s := a + [d] + b;
      assert s[0] == a[0];
      assert s[1..] == a[1..] + [d] + b;
      SplitAtFirst(a[1..], d, b);
      assert [a[0]] + a[1..] == a;
    }
  }

  /** Split undoes Join whenever no part contains the delimiter. */
  lemma {:induction false} SplitJoin(parts: seq<string>, d: char)
    requires |parts| >= 1
    requires forall i :: 0 <= i < |parts| ==> d !in parts[i]
    ensures Split(Join(parts, d), d) == parts
  {
    if |parts| == 1 {
      SplitNoDelimiter(parts[0], d);
    } else {
      SplitJoin(parts[1..], d);
      SplitAtFirst(parts[0], d, Join(parts[1..], d));
      assert [parts[0]] + parts[1..] == parts;
    }
  }

  /** The first part only depends on the text before the first delimiter, so appending a
      delimiter and more text to `a` leaves the first part unchanged. */
  lemma {:induction false} SplitFirstStable(a: string, d: char, b: string)
    ensures Split(a + [d] + b, d)[0] == Split(a, d)[0]
  {
    if a == [] {
      assert a + [d] + b == [d] + b;
    } else {
      var s := a + [d] + b;
      assert s[0] == a[0];
      assert s[1..] == a[1..] + [d] + b;
      SplitFirstStable(a[1..], d, b);
    }
  }

  /** Joining one more part appends the delimiter and that part. */
  lemma {:induction false} JoinSnoc(parts: seq<string>, x: string, d: char)
    requires |parts| >= 1
    ensures Join(parts + [x], d) == Join(parts, d) + [d] + x
    decreases |parts|
  {
    if |parts| > 1 {
      assert (parts + [x])[1..] == parts[1..] + [x];
      JoinSnoc(parts[1..], x, d);
    }
  }

  /** Splitting at the last delimiter: the text after it is the last part, and the parts
      before are those of the text before it. */
  lemma {:induction false} SplitAtLast(a: string, d: char, b: string)
    requires d !in b
    ensures Split(a + [d] + b, d) == Split(a, d) + [b]
    decreases |a|
  {
    var s := a + [d] + b;
    if a == [] {
      assert s == [d] + b;
      assert s[1..] == b;
      SplitNoDelimiter(b, d);
    } else {
      assert s[0] == a[0];
      assert s[1..] == a[1..] + [d] + b;
      SplitAtLast(a[1..], d, b);
    }
  }
}

=== FILE: optional.dfy ===
/** Kotlin's nullable values and thrown exceptions, as plain datatypes.
- Option<T> stands for a Kotlin `T?`: None is `null`.
- Result<R, E> stands for a computation that either returns an R or throws, with E naming
  the failure.
 */
module Optional {

  datatype Option<+T> = None | Some(value: T) {

    /** Kotlin's elvis operator `this ?: default`. */
    function GetOr(default: T): (r: T)
      ensures Some? ==> r == value
      ensures None? ==> r == default
    {
      match this
      case Some(v) => v
      case None => default
    }
  }

  datatype Result<+R, +E> = Success(value: R) | Failure(error: E)
}
